=== FILE: README.md ===
# Clinic appointment lifecycle, modelled in Dafny

This project models the appointment core of a clinic-booking backend. Patients and
providers book appointments around a fixed set of topics, each of which has a duration
in minutes. The model covers:

- the six-valued appointment status and its stored strings ("In Progress" has a space);
- the derived end time: the start time plus the summed topic durations;
- creation: the field validation, the caller bound as patient (or provider), and the default
  `Scheduled` status;
- the post-save hook that turns a past `Scheduled` appointment into `Overdue`;
- the cancel action: the status guard, the role-gated target status, and how each HTTP method
  (GET, HEAD, POST with or without a form-encoded body, PATCH) reaches the handler;
- the provider-only notes action, including the trimming and NUL check of the notes text, reached
  by the same four kinds of request;
- the role and ownership checks, and the owner-filtered listing sorted by start time;
- the fields each serializer may write, and the cancel and edit-notes links in the representation.

Times are integers counting minutes on one clock. The current time `now` is a parameter of
every operation that reads the clock. The database is two values: a `Registry` holds the
patient, provider and topic tables, and a `Store` maps each appointment's primary key to
its row. Each request handler takes these tables and returns a `Result`. The create, cancel
and notes handlers are pure functions; a successful result holds the new table and the
appointment the handler answered with. The listing is a method (`Views.List`, built on
`Views.Queryset`) that gathers the caller's rows with a loop and returns them as a sequence. The
patient and provider endpoints differ only in the role, so each action is written once
with a `Role` parameter.

Modules, in dependency order:

| file | module | models |
|---|---|---|
| common.dfy | `Common` | option/result types, roles, field names, error kinds |
| status.dfy | `Statuses` | the status choices and their strings |
| topics.dfy | `Topics` | topic records and the duration sum |
| appointment.dfy | `Appointments` | the appointment record, end time, defaults, model validation |
| signals.dfy | `Signals` | the post-save overdue hook |
| serializers.dfy | `Serializers` | create validation, cancel status validation, writable fields, representation |
| views.dfy | `Views` | role and object checks, listing, create, cancel, notes update |

Behaviours of the code a reader might not expect:

- Asking for someone else's appointment gives "not found" (HTTP 404), not "permission denied".
  The lookup only searches the caller's own appointments, so the object check is never
  reached (`Views.OthersAppointmentNotFound`).
- The overdue correction runs only when an existing row is saved, for example by a cancel or a
  notes update. Reading or listing appointments never changes their status.
- A caller with no patient (or provider) record is refused by the role check (HTTP 403) before
  the listing runs. The owner filter on its own would give an empty list (`Views.Queryset`).
- A form POST is read from the form-encoded body only. A POST with a JSON body therefore submits
  no status and no notes: a JSON cancel cancels nothing and a JSON notes update stores nothing,
  yet both save the row, which moves the modification time and runs the overdue rule
  (`Views.NonFormPostKeepsStatus`, `Views.NonFormPostKeepsNotes`).
- Both viewsets allow HEAD, which reaches the cancel and notes handlers like a GET does. The
  handlers only single out GET, so a HEAD takes the PATCH path: it cancels the appointment,
  or saves the row with no notes. See "## Findings".

## Model

| member | source | states |
|---|---|---|
| Statuses.Label | appointments/api/models.py:44-57 | each of the six statuses has a non-empty stored string that fits the 20-character status column |
| Statuses.Parse | appointments/api/models.py:44-51 | a submitted string is accepted exactly when it is one of the six stored strings, and it then maps back to that string |
| Statuses.ParseLabel | appointments/api/models.py:44-51 | parsing the stored string of a status gives back that status |
| Statuses.LabelInjective | appointments/api/models.py:44-51 | two statuses have the same stored string only if they are the same status |
| Statuses.Cancellable | appointments/api/views.py:64 | the cancel guard's list of strings admits exactly Scheduled and In Progress |
| Statuses.InProgressNeedsSpace | appointments/api/models.py:46 | "In Progress" with a space is a choice; "InProgress" is not |
| Topics.TotalDuration | appointments/api/models.py:65 | the summed duration is zero exactly when every topic is zero minutes long, in particular for no topics |
| Topics.TotalDurationAppend | appointments/api/models.py:65 | the duration sum over two lists of topics joined is the sum of the two sums |
| Topics.AddTopic | appointments/api/models.py:65-66 | adding a topic of d minutes adds exactly d to the total |
| Topics.OrderIndependent | appointments/api/models.py:65 | lists holding the same topics in any order have the same total |
| Topics.EachWithinTotal | appointments/api/models.py:37-66 | durations are non-negative, so no single topic's duration exceeds the total |
| Topics.SumDurations | appointments/api/models.py:65 | summing one topic at a time, as the generator expression does, yields the total |
| Topics.Distinct | appointments/api/models.py:55 | repeated topic ids collapse to one: the result has the same ids and no repeats |
| Topics.CoughAndFatigue | appointments/api/models.py:62-66 | a 15-minute and a 20-minute topic total 35 minutes |
| Appointments.EndTime | appointments/api/models.py:62-66 | the end time is never before the start, nor before the start plus any single topic's duration |
| Appointments.EndTimeAddTopic | appointments/api/models.py:62-66 | adding a topic of d minutes moves the end time later by exactly d |
| Appointments.EndTimeOrderIndependent | appointments/api/models.py:65 | reordering an appointment's topics leaves its end time unchanged |
| Appointments.EndTimeExample | appointments/api/models.py:62-66 | topics of 15 and 20 minutes starting at T end at T + 35 |
| Appointments.Clean | appointments/api/models.py:68-72 | model validation passes exactly when the start time is unset or strictly after now, and otherwise reports a non-field error |
| Signals.IsStale | appointments/api/signals.py:11-12 | the hook's condition holds only for a row that still passes the cancel guard, so the hook is what closes cancellation for a past appointment |
| Signals.Reconcile | appointments/api/signals.py:6-14 | on a non-creating save, Scheduled with start < now becomes Overdue; in every other case the status is kept; no other field changes |
| Signals.Save | appointments/api/signals.py:6-14 | a save sets the modification time; the status changes only by the Scheduled-to-Overdue rule; no other field changes |
| Signals.ReconcileIdempotent | appointments/api/signals.py:11-14 | running the hook twice gives the same row as running it once |
| Signals.SaveIdempotent | appointments/api/signals.py:11-14 | saving twice at the same moment gives the same row as saving once |
| Signals.CreatingSaveKeepsStatus | appointments/api/signals.py:11 | a creating save changes nothing |
| Signals.OnlyScheduledChanges | appointments/api/signals.py:11 | a row whose status is not Scheduled is left unchanged |
| Signals.StartingNowStaysScheduled | appointments/api/signals.py:12 | the comparison is strict: an appointment starting exactly now stays Scheduled |
| Signals.PastScheduledBecomesOverdue | appointments/api/signals.py:11-14 | a Scheduled appointment whose start has passed is Overdue after its next update |
| Signals.OverdueNotCancellable | appointments/api/signals.py:13 | an appointment the hook marks Overdue no longer passes the cancel guard |
| Serializers.ValidateStartTime | appointments/api/serializers.py:97-100 | a start time passes exactly when it is strictly after now; otherwise the start_time field is reported |
| Serializers.ValidateTopics | appointments/api/serializers.py:102-105 | a topic list passes exactly when it is non-empty; otherwise the topics field is reported |
| Serializers.ResolveTopics | appointments/api/serializers.py:91 | every submitted topic id must name a topic, and each one resolves to that topic |
| Serializers.CounterpartField | appointments/api/serializers.py:90-113 | patients submit the provider field and providers submit the patient field |
| Serializers.ValidateCreate | appointments/api/serializers.py:90-123 | creation passes exactly when the counterpart exists, the topics are non-empty and all known, and the start is in the future; otherwise every failing field, and only those, is reported; on success the topics are the distinct submitted ones |
| Serializers.CancelTarget | appointments/api/serializers.py:136-139 | a patient's cancelled status is UserCanceled and a provider's is ProviderCanceled; neither can itself be cancelled |
| Serializers.ValidateCancelStatus | appointments/api/serializers.py:132-141 | a patient's status passes only if it is "UserCanceled" and a provider's only if it is "ProviderCanceled"; with no role, any of the six choices passes; otherwise the status field is reported |
| Serializers.CancelStatusForRole | appointments/api/serializers.py:136-139 | for a given role, exactly one status string passes: the role's own cancelled status |
| Serializers.Strip | appointments/api/serializers.py:144-147 | trimming keeps the stretch of the text after its leading whitespace and before a run of trailing whitespace, and that stretch neither starts nor ends with whitespace |
| Serializers.StripIdempotent | appointments/api/serializers.py:144-147 | trimming already-trimmed text changes nothing |
| Serializers.StripKeepsNul | appointments/api/serializers.py:144-147 | trimming removes only whitespace, so the text holds a NUL after trimming exactly when it did before |
| Serializers.ValidateNotes | appointments/api/serializers.py:144-147 | the notes field keeps null, rejects text holding a NUL on the notes field, and otherwise yields the trimmed text |
| Serializers.NotesExamples | appointments/api/serializers.py:144-147 | " Follow up\n" is stored as "Follow up", and text with a NUL is rejected |
| Serializers.Writable | appointments/api/serializers.py:52-148 | topics are never writable after creation, and every serializer's writable fields are named fields |
| Serializers.ApplyChanges | appointments/api/serializers.py:126-148 | a field changes only if it is writable and was sent, and then it takes the sent value |
| Serializers.CancelFormWritesOnlyStatus | appointments/api/serializers.py:126-130 | the cancel serializer writes the status and nothing else |
| Serializers.NotesFormWritesOnlyNotes | appointments/api/serializers.py:144-148 | the notes serializer writes the provider's notes and nothing else |
| Serializers.PatientFormKeepsNotes | appointments/api/serializers.py:52-59 | the patient-facing serializer never writes the provider's notes or the provider |
| Serializers.Represent | appointments/api/serializers.py:61-87 | the representation's end time is the start plus the summed durations; the cancel link is shown exactly while Scheduled or In Progress; only providers get an edit-notes link; no link without a request |
| Views.HasRole | appointments/api/views.py:16-26 | on a consistent registry, the role check holds exactly when the role's table has a record whose user is the caller |
| Views.InQueryset | appointments/api/views.py:37-42 | the owner filter keeps nothing for a caller without a record; on consistent tables, comparing primary keys is the same as comparing the appointment's record with the caller's |
| Views.QuerysetIsOwnership | appointments/api/views.py:16-42 | on consistent tables, the owner filter of the listing and the object check accept the same appointments |
| Views.GetObject | appointments/api/views.py:16-42 | the detail lookup succeeds exactly when the caller has the role, owns the row and it exists; a missing role gives 403; a missing row or someone else's row gives 404 |
| Views.OthersAppointmentNotFound | appointments/api/views.py:37-42 | another user's appointment is reported as not found |
| Views.GetObjectIsOwnership | appointments/api/views.py:20-29 | on consistent tables, the lookup succeeds exactly for the caller's own appointments |
| Views.InsertByStart | appointments/api/views.py:40 | inserting adds exactly one copy of the new appointment and keeps every other element: the result's multiset is the input's plus the new appointment |
| Views.InsertSorted | appointments/api/views.py:40 | inserting into a list sorted by start time keeps it sorted |
| Views.InsertDistinct | appointments/api/views.py:40 | inserting an appointment whose id is new keeps the ids in the list distinct |
| Views.Queryset | appointments/api/views.py:37-42 | the listing holds each of the caller's stored appointments exactly once and nothing else, sorted by start time; it is empty when the caller has no record of the role |
| Views.List | appointments/api/views.py:32-42 | the list action is refused without the role; otherwise it returns exactly the caller's own appointments, sorted by start time, and every element is the stored row under its own key and passes the owner filter |
| Views.Create | appointments/api/views.py:51-58 | creation succeeds exactly when the caller has the role and the request validates; the caller's own record is bound and the other party is the one the request names; the new row is Scheduled with null notes, created and modified at the current time, starts in the future, has topics and is the only change to the table |
| Views.CreateKeepsStoreValid | appointments/api/views.py:51-58 | creation keeps every row filed under its key and pointing to registered records |
| Views.CreateEndTime | appointments/api/views.py:55-57 | a created appointment starts at the submitted time and ends after the summed durations of the distinct submitted topics |
| Views.SubmittedStatus | appointments/api/views.py:76-79 | the constant status a PATCH submits always passes the serializer's role check and yields the role's cancelled status; a form POST submits its own status field |
| Views.Cancel | appointments/api/views.py:60-96 | cancel fails unless the lookup succeeds and the status is Scheduled or In Progress; a GET and a POST without a status succeed exactly then, and a GET answers with the stored row and changes nothing; a PATCH then always succeeds and sets the role's cancelled status; a POST succeeds only with that status or with none; only the one row changes |
| Views.PatchCancelSetsTarget | appointments/api/views.py:76-89 | a successful PATCH cancel sets UserCanceled for a patient and ProviderCanceled for a provider, and changes nothing else but the modification time |
| Views.TerminalNotCancellable | appointments/api/views.py:64-65 | Completed, Overdue, UserCanceled and ProviderCanceled appointments cannot be cancelled |
| Views.SecondCancelFails | appointments/api/views.py:64-89 | after a cancel that set a cancelled status, every further cancel of the same appointment fails |
| Views.WrongTargetRejected | appointments/api/views.py:145-157 | a patient submitting "ProviderCanceled", or a provider submitting "UserCanceled", gets a status-field validation error |
| Views.CancelMethodOf | appointments/api/views.py:67-79 | only a GET reaches the confirmation page; a HEAD reaches the PATCH path; a POST submits exactly the form's status field when its body is form-encoded, and no status otherwise |
| Views.HeadCancels | appointments/api/views.py:67-96 | on a cancellable appointment of one's own, a HEAD request succeeds and changes the status to the role's cancelled status |
| Views.NonFormPostKeepsStatus | appointments/api/views.py:76-96 | a POST without a form-encoded body passes exactly when the guard does, and leaves the status as it was except for the overdue rule |
| Views.SafeCancelMethodOf | appointments/api/views.py:67-79 | the intended reading answers GET and HEAD with the confirmation page and reads every other request as the handler does |
| Views.CancelLinkMatchesGuard | appointments/api/serializers.py:61-65 | the cancel link is shown exactly when a PATCH cancel would succeed |
| Views.UpdateNotes | appointments/api/views.py:167-200 | the notes action succeeds exactly when the provider lookup succeeds and the submitted text holds no NUL, whatever the status; a NUL is reported on the notes field; sent text is stored with surrounding whitespace trimmed, a sent null clears the notes, and absent notes are kept; the status changes only by the overdue rule |
| Views.NotesIgnoreStatus | appointments/api/views.py:167-193 | whatever the appointment's status, a submitted notes value is accepted exactly when the notes field accepts it, and the field's cleaned value is what is stored |
| Views.NotesNeedProvider | appointments/api/views.py:99-100 | a caller without a provider record is refused the notes action |
| Views.NotesMethodOf | appointments/api/views.py:171-184 | only a GET reaches the edit form; a PATCH submits its body's notes field as sent, a form-encoded POST submits its notes text when present, and a HEAD or a POST without a form-encoded body submits no notes; a form never submits null |
| Views.HeadSavesNotesRow | appointments/api/views.py:171-199 | a HEAD request to one's own appointment succeeds, keeps the notes, sets the modification time to now and applies the overdue rule |
| Views.NonFormPostKeepsNotes | appointments/api/views.py:179-199 | a POST without a form-encoded body is accepted exactly when the lookup succeeds and keeps the notes |
| Views.SafeNotesMethodOf | appointments/api/views.py:171-184 | the intended reading answers GET and HEAD with the edit form and reads every other request as the handler does |
| Views.SafeRequestsWriteNothing | appointments/api/views.py:67-177 | under the intended reading, a successful GET or HEAD on either cancel handler (lines 67-74 and 136-143) or on the notes handler (lines 171-177) returns the stored row and leaves the table unchanged |
| Views.WritesKeepStoreValid | appointments/api/views.py:88-193 | the saves of both cancel handlers (lines 88-89 and 157-158) and of the notes handler (lines 192-193) keep the appointment table consistent |

## Left out

- Authentication, sessions and logout: every caller is an authenticated user. The
  `IsAuthenticated` check and the logout view are not modelled.
- Routing, admin registration and the read-only topic listing endpoint: they hold no logic.
- Templates, redirects and absolute URL strings. A GET on cancel or notes returns the
  appointment and leaves the table unchanged. The links in the representation are booleans.
- The generic retrieve, update and partial-update handlers are framework behaviour. Only the
  writable-field sets they would use are modelled (`Serializers.Writable`). These sets show that
  the patient-facing serializer leaves `patient` and `status` writable. A generic PATCH could
  therefore change them outside the cancel rules. This path is not modelled further.
- Dates and time zones: times are integer minutes and the clock is the `now` parameter. Finer
  resolution than a minute is not modelled.
- Appointments.EndTime: times are unbounded integers, whereas the program's datetimes end at
  31 December 9999. An appointment booked close to that date passes creation, but computing its end
  time then overflows, so every response showing it and every listing holding it fails. The model's
  end time is always defined and does not show this failure.
- Views.UpdateNotes: the notes text is a string here. A submitted number, which the field would
  convert to text, and a boolean or nested value, which it would reject, are not modelled. The
  field's check against surrogate characters needs no model, because a Dafny `char` is never a
  surrogate.
- Primary keys are assigned by the database. Here the new key is a parameter that must not
  already be in the table.
- An appointment keeps a copy of its topic records. A later edit to a topic's duration does not
  reach existing appointments, whereas the program reads the current duration.
- Topics.TotalDuration: durations are unbounded naturals. The database column's 32-bit upper bound
  is not modelled, because the program never does arithmetic near it.
- Views.Create: the 404 of the patient (or provider) lookup is not modelled. The role check has
  already refused any caller without that record, so the lookup cannot fail.
- Error messages: an error carries only its kind and the failing fields, not the message text.
- `Appointments.Clean` is modelled on its own. The create path never calls it, because serializer
  validation does not run model validation.
- Concurrency and transactions: each request is one atomic step on the tables.
- `__str__` formatting of records.

## Findings

| source | as written | input that shows it | evidently intended | confidence | as-written member | corrected member |
|---|---|---|---|---|---|---|
| appointments/api/views.py:67-79 | the cancel handler singles out GET only, so a HEAD (allowed at line 35 and 102) keeps the default data and cancels like a PATCH | HEAD on the cancel URL of one's own Scheduled appointment | HEAD answered like GET, with no change to the appointment | medium, not executed | Views.HeadCancels | Views.SafeCancelMethodOf |
| appointments/api/views.py:171-184 | the notes handler singles out GET only, so a HEAD takes the `request.data` branch and saves the row | HEAD on the notes URL of one's own appointment whose start has passed while Scheduled | HEAD answered like GET, with no save | medium, not executed | Views.HeadSavesNotesRow | Views.SafeNotesMethodOf |

The corrected readings are proved safe by `Views.SafeRequestsWriteNothing`; on every other request
they agree with the handler's own reading.

=== FILE: appointment.dfy ===
/**
  The appointment record: who it is for, with whom, on which topics, when,
  in which status, and the provider's free-text notes. Its end time is not
  stored; it is derived from the start time and the topics.

  Times are whole minutes on one integer clock; the current time is always
  passed in as `now`.
 */
module Appointments {
  import opened Common
  import opened Statuses
  import opened Topics

  type PatientId = nat
  type ProviderId = nat
  type AppointmentId = nat

  /** A patient record, linked one-to-one to a user account. */
  datatype Patient = Patient(id: PatientId, user: UserId)

  /** A provider record, linked one-to-one to a user account. */
  datatype Provider = Provider(id: ProviderId, user: UserId)

  /** An appointment row together with the records its foreign keys point to.
      `topics` holds each topic at most once (a many-to-many relation);
      `notes` is `None` for a null column. */
  datatype Appointment = Appointment(
    id: AppointmentId,
    provider: Provider,
    patient: Patient,
    topics: seq<Topic>,
    notes: Option<string>,
    status: Status,
    start: int,
    createdAt: int,
    updatedAt: int)

  /** When the appointment ends: its start plus the summed topic durations. */
  function EndTime(a: Appointment): (r: int)
    ensures r >= a.start
    ensures forall i :: 0 <= i < |a.topics| ==> a.start + a.topics[i].duration <= r
  {
    forall i | 0 <= i < |a.topics|
      ensures a.topics[i].duration <= TotalDuration(a.topics)
    {
      EachWithinTotal(a.topics, i);
    }
    a.start + TotalDuration(a.topics)
  }

  /** A freshly inserted row: every column not supplied takes its default,
      so the status is Scheduled and the notes are null; both timestamps
      are the insertion time. */
  function New(id: AppointmentId, provider: Provider, patient: Patient,
               topics: seq<Topic>, start: int, now: int): (a: Appointment)
    ensures a.status == Scheduled
    ensures a.notes == None
    ensures a.createdAt == now && a.updatedAt == now
    ensures a.id == id && a.provider == provider && a.patient == patient
    ensures a.topics == topics && a.start == start
  {
    Appointment(id, provider, patient, topics, None, Scheduled, start, now, now)
  }

  /** Model-level validation: a start time, when one is set, must lie
      strictly after `now`. */
  function Clean(start: Option<int>, now: int): (r: Outcome)
    ensures r.Pass? <==> (start.None? || now < start.value)
    ensures r.Fail? ==> r.error == Invalid({NonField})
  {
    if start.Some? && start.value <= now then Fail(Invalid({NonField})) else Pass
  }

  /** Adding a topic of d minutes moves the end time later by exactly d. */
  lemma EndTimeAddTopic(a: Appointment, t: Topic)
    ensures EndTime(a.(topics := a.topics + [t])) == EndTime(a) + t.duration
  {
    AddTopic(a.topics, t);
  }

  /** Reordering the topics leaves the end time unchanged. */
  lemma EndTimeOrderIndependent(a: Appointment, topics: seq<Topic>)
    requires multiset(topics) == multiset(a.topics)
    ensures EndTime(a.(topics := topics)) == EndTime(a)
  {
    OrderIndependent(topics, a.topics);
  }

  /** The worked example: a 15-minute and a 20-minute topic starting at T end at T + 35. */
  lemma EndTimeExample(a: Appointment, x: TopicId, y: TopicId)
    requires a.topics == [Topic(x, CoughOrCold, 15), Topic(y, Fatigue, 20)]
    ensures EndTime(a) == a.start + 35
  {
    CoughAndFatigue(x, y);
  }
}

=== FILE: common.dfy ===
/**
  Shared vocabulary of the appointment model: optional values, the two
  caller roles, the names of the appointment's fields (used both for
  field-level validation errors and for the writable-field sets of the
  serializers), and the error taxonomy of the request handlers.
 */
module Common {

  /** A value that may be absent (a missing request field, a null column). */
  datatype Option<+T> = None | Some(value: T)

  /** Identifier of an authenticated user account. */
  type UserId = nat

  /** The two kinds of caller: a user linked to a Patient record or to a Provider record. */
  datatype Role = PatientRole | ProviderRole

  /** The fields of an appointment, as named in error reports and writable-field sets.
      `NonField` stands for errors raised by model-level validation. */
  datatype Field =
    | ProviderField
    | PatientField
    | TopicsField
    | ProviderNotesField
    | StatusField
    | StartTimeField
    | NonField

  /** Failure kinds of the request handlers:
      - `Invalid`: a validation error (HTTP 400) naming every failing field;
      - `Forbidden`: the caller lacks the role or the object permission (HTTP 403);
      - `NotFound`: no matching record (HTTP 404);
      - `NotCancellable`: the cancel action's status guard refused (HTTP 400). */
  datatype Error =
    | Invalid(fields: set<Field>)
    | Forbidden
    | NotFound
    | NotCancellable

  datatype Result<+T> = Ok(value: T) | Err(error: Error)

  /** Outcome of a check that produces no value. */
  datatype Outcome = Pass | Fail(error: Error)
}

=== FILE: serializers.dfy ===
/**
  Request validation and the data projections of the appointment
  serializers: field checks for creation, the role check on a cancel
  request's status, the set of fields each serializer may write, and the
  representation returned to patients and providers.
 */
module Serializers {
  import opened Common
  import opened Statuses
  import opened Topics
  import opened Appointments

  // ---------------------------------------------------------------------
  // Creation
  // ---------------------------------------------------------------------

  /** A start time is accepted only if it lies strictly after `now`. */
  function ValidateStartTime(start: int, now: int): (r: Result<int>)
    ensures r.Ok? <==> now < start
    ensures r.Ok? ==> r.value == start
    ensures r.Err? ==> r.error == Invalid({StartTimeField})
  {
    if start <= now then Err(Invalid({StartTimeField})) else Ok(start)
  }

  /** At least one topic must be chosen. */
  function ValidateTopics(topics: seq<Topic>): (r: Result<seq<Topic>>)
    ensures r.Ok? <==> |topics| > 0
    ensures r.Ok? ==> r.value == topics
    ensures r.Err? ==> r.error == Invalid({TopicsField})
  {
    if |topics| == 0 then Err(Invalid({TopicsField})) else Ok(topics)
  }

  /** The topic table is keyed by each topic's own id. */
  predicate CatalogueValid(catalogue: map<TopicId, Topic>) {
    forall k :: k in catalogue ==> catalogue[k].id == k
  }

  /** Looks every submitted topic id up in the topic table; one unknown id
      rejects the whole list. */
  function ResolveTopics(catalogue: map<TopicId, Topic>, ids: seq<TopicId>): (r: Option<seq<Topic>>)
    ensures r.Some? <==> forall i :: 0 <= i < |ids| ==> ids[i] in catalogue
    ensures r.Some? ==> |r.value| == |ids|
    ensures r.Some? ==> forall i :: 0 <= i < |ids| ==> r.value[i] == catalogue[ids[i]]
  {
    if |ids| == 0 then Some([])
    else if ids[0] !in catalogue then None
    else match ResolveTopics(catalogue, ids[1..])
      case None => None
      case Some(rest) => Some([catalogue[ids[0]]] + rest)
  }

  /** A create request as submitted: the counterpart's primary key (the
      provider for a patient, the patient for a provider), the topic ids and
      the start time. Missing fields are `None`. */
  datatype CreateRequest = CreateRequest(counterpart: Option<nat>, topics: seq<TopicId>, start: Option<int>)

  /** The validated content of a create request. */
  datatype CreateData<C> = CreateData(counterpart: C, topics: seq<Topic>, start: int)

  /** The field that names the other party: patients choose a provider and
      providers choose a patient. */
  function CounterpartField(role: Role): (f: Field)
    ensures f == ProviderField || f == PatientField
    ensures (f == ProviderField) <==> role == PatientRole
  {
    match role
    case PatientRole => ProviderField
    case ProviderRole => PatientField
  }

  predicate CounterpartOk<C>(req: CreateRequest, counterparts: map<nat, C>) {
    req.counterpart.Some? && req.counterpart.value in counterparts
  }

  predicate TopicsOk(req: CreateRequest, catalogue: map<TopicId, Topic>) {
    |req.topics| > 0 && forall i :: 0 <= i < |req.topics| ==> req.topics[i] in catalogue
  }

  predicate StartOk(req: CreateRequest, now: int) {
    req.start.Some? && now < req.start.value
  }

  /** Validates every field of a create request and reports all failing
      fields at once. On success the topics are the distinct submitted
      topics, each looked up in the topic table. */
  function ValidateCreate<C>(role: Role, req: CreateRequest, counterparts: map<nat, C>,
                             catalogue: map<TopicId, Topic>, now: int): (r: Result<CreateData<C>>)
    requires CatalogueValid(catalogue)
    ensures r.Ok? <==> CounterpartOk(req, counterparts) && TopicsOk(req, catalogue) && StartOk(req, now)
    ensures r.Err? ==> r.error.Invalid?
    ensures r.Err? ==> (CounterpartField(role) in r.error.fields <==> !CounterpartOk(req, counterparts))
    ensures r.Err? ==> (TopicsField in r.error.fields <==> !TopicsOk(req, catalogue))
    ensures r.Err? ==> (StartTimeField in r.error.fields <==> !StartOk(req, now))
    ensures r.Err? ==> r.error.fields <= {CounterpartField(role), TopicsField, StartTimeField}
    ensures r.Ok? ==> r.value.counterpart == counterparts[req.counterpart.value]
    ensures r.Ok? ==> r.value.start == req.start.value && now < r.value.start
    ensures r.Ok? ==> |r.value.topics| > 0
    ensures r.Ok? ==> forall t :: t in r.value.topics <==> t.id in req.topics && t in catalogue.Values
    ensures r.Ok? ==> forall i, j :: 0 <= i < j < |r.value.topics| ==> r.value.topics[i] != r.value.topics[j]
  {
    var counterpartErr: set<Field> :=
      if req.counterpart.Some? && req.counterpart.value in counterparts then {} else {CounterpartField(role)};
    var resolved := ResolveTopics(catalogue, req.topics);
    var topicsErr: set<Field> :=
      if resolved.None? then {TopicsField}
      else if ValidateTopics(resolved.value).Err? then {TopicsField}
      else {};
    var startErr: set<Field> :=
      if req.start.None? then {StartTimeField}
      else if ValidateStartTime(req.start.value, now).Err? then {StartTimeField}
      else {};
    var errors := counterpartErr + topicsErr + startErr;
    if errors != {} then Err(Invalid(errors))
    else
      var ids := Distinct(req.topics);
      var topics := ResolveTopics(catalogue, ids);
      assert topics.Some? by {
        forall i | 0 <= i < |ids| ensures ids[i] in catalogue {
          assert ids[i] in req.topics;
        }
      }
      assert |ids| > 0 by {
        assert req.topics[0] in ids;
      }
      DistinctTopics(catalogue, ids, topics.value);
      forall t: Topic | t in topics.value
        ensures t.id in req.topics && t in catalogue.Values
      {
        var i :| 0 <= i < |topics.value| && topics.value[i] == t;
        assert ids[i] in catalogue && catalogue[ids[i]] == t;
      }
      forall t: Topic | t.id in req.topics && t in catalogue.Values
        ensures t in topics.value
      {
        var i :| 0 <= i < |ids| && ids[i] == t.id;
        assert topics.value[i] == catalogue[t.id];
      }
      Ok(CreateData(counterparts[req.counterpart.value], topics.value, req.start.value))
  }

  /** Distinct ids of a valid topic table resolve to distinct topics. */
  lemma DistinctTopics(catalogue: map<TopicId, Topic>, ids: seq<TopicId>, topics: seq<Topic>)
    requires CatalogueValid(catalogue)
    requires forall i, j :: 0 <= i < j < |ids| ==> ids[i] != ids[j]
    requires |topics| == |ids|
    requires forall i :: 0 <= i < |ids| ==> ids[i] in catalogue && topics[i] == catalogue[ids[i]]
    ensures forall i, j :: 0 <= i < j < |topics| ==> topics[i] != topics[j]
  {
  }

  // ---------------------------------------------------------------------
  // Cancellation
  // ---------------------------------------------------------------------

  /** The only status each role may set when cancelling. */
  function CancelTarget(role: Role): (s: Status)
    ensures s == UserCanceled || s == ProviderCanceled
    ensures !Cancellable(s)
    ensures (s == UserCanceled) <==> role == PatientRole
  {
    match role
    case PatientRole => UserCanceled
    case ProviderRole => ProviderCanceled
  }

  /** Validates the status of a cancel request: the string must be one of
      the six choices, and then a patient may only send "UserCanceled" and a
      provider only "ProviderCanceled". Without a role any choice passes. */
  function ValidateCancelStatus(role: Option<Role>, value: string): (r: Result<Status>)
    ensures r.Ok? ==> Label(r.value) == value
    ensures role == Some(PatientRole) ==> (r.Ok? <==> value == "UserCanceled")
    ensures role == Some(ProviderRole) ==> (r.Ok? <==> value == "ProviderCanceled")
    ensures role.None? ==> (r.Ok? <==> exists s :: Label(s) == value)
    ensures r.Err? ==> r.error == Invalid({StatusField})
  {
    match Parse(value)
    case None => Err(Invalid({StatusField}))
    case Some(s) =>
      if role == Some(PatientRole) && value != "UserCanceled" then Err(Invalid({StatusField}))
      else if role == Some(ProviderRole) && value != "ProviderCanceled" then Err(Invalid({StatusField}))
      else Ok(s)
  }

  /** With a role, exactly one status passes validation: the role's own target. */
  lemma CancelStatusForRole(role: Role, value: string)
    ensures ValidateCancelStatus(Some(role), value).Ok? <==> value == Label(CancelTarget(role))
    ensures ValidateCancelStatus(Some(role), value).Ok? ==> ValidateCancelStatus(Some(role), value).value == CancelTarget(role)
  {
  }

  // ---------------------------------------------------------------------
  // Provider notes
  // ---------------------------------------------------------------------

  /** The characters that trimming removes: those the program's runtime
      classes as whitespace. */
  predicate IsSpace(c: char) {
    || c == ' '
    || ('\t' <= c <= '\r')
    || ('\U{1C}' <= c <= '\U{1F}')
    || c == '\U{85}' || c == '\U{A0}' || c == '\U{1680}'
    || ('\U{2000}' <= c <= '\U{200A}')
    || c == '\U{2028}' || c == '\U{2029}' || c == '\U{202F}' || c == '\U{205F}' || c == '\U{3000}'
  }

  /** Number of whitespace characters the text starts with. */
  function LeadingSpace(s: string): (n: nat)
    ensures n <= |s|
    ensures forall k :: 0 <= k < n ==> IsSpace(s[k])
    ensures n < |s| ==> !IsSpace(s[n])
  {
    if |s| > 0 && IsSpace(s[0]) then 1 + LeadingSpace(s[1..]) else 0
  }

  /** Drops trailing whitespace. */
  function TrimEnd(s: string): (r: string)
    ensures |r| <= |s| && r == s[..|r|]
    ensures |r| > 0 ==> !IsSpace(r[|r| - 1])
    ensures forall i :: |r| <= i < |s| ==> IsSpace(s[i])
  {
    if |s| > 0 && IsSpace(s[|s| - 1]) then TrimEnd(s[..|s| - 1]) else s
  }

  /** Whitespace trimmed from both ends: the result is the stretch of the
      input between the run of leading whitespace and a run of trailing
      whitespace, and it neither starts nor ends with whitespace. */
  function Strip(s: string): (r: string)
    ensures LeadingSpace(s) + |r| <= |s|
    ensures r == s[LeadingSpace(s)..LeadingSpace(s) + |r|]
    ensures forall k :: LeadingSpace(s) + |r| <= k < |s| ==> IsSpace(s[k])
    ensures |r| > 0 ==> !IsSpace(r[0]) && !IsSpace(r[|r| - 1])
  {
    TrimEnd(s[LeadingSpace(s)..])
  }

  /** Trimming twice is trimming once. */
  lemma StripIdempotent(s: string)
    ensures Strip(Strip(s)) == Strip(s)
  {
  }

  /** Trimming removes only whitespace, so it never removes a NUL character. */
  lemma StripKeepsNul(s: string)
    ensures '\0' in Strip(s) <==> '\0' in s
  {
  }

  /** The notes field: null is kept, text is trimmed, and text holding a NUL
      character is rejected on the notes field. */
  function ValidateNotes(v: Option<string>): (r: Result<Option<string>>)
    ensures v.None? ==> r == Ok(None)
    ensures v.Some? ==> (r.Ok? <==> '\0' !in v.value)
    ensures v.Some? && r.Ok? ==> r.value == Some(Strip(v.value))
    ensures r.Err? ==> r.error == Invalid({ProviderNotesField})
  {
    match v
    case None => Ok(None)
    case Some(text) =>
      var t := Strip(text);
      StripKeepsNul(text);
      if '\0' in t then Err(Invalid({ProviderNotesField})) else Ok(Some(t))
  }

  /** Surrounding whitespace and line breaks are dropped; a NUL is refused. */
  lemma NotesExamples()
    ensures ValidateNotes(Some(" Follow up\n")) == Ok(Some("Follow up"))
    ensures ValidateNotes(Some("a\0b")).Err?
  {
    var s := " Follow up\n";
    var t := "Follow up\n";
    assert s[1..] == t && !IsSpace(t[0]);
    assert LeadingSpace(s) == 1 + LeadingSpace(t) == 1;
    assert t[..|t| - 1] == "Follow up";
    assert TrimEnd(t) == TrimEnd("Follow up") == "Follow up";
    assert "a\0b"[1] == '\0';
  }

  // ---------------------------------------------------------------------
  // Writable fields
  // ---------------------------------------------------------------------

  /** The serializers that can write to an existing appointment. */
  datatype SerializerKind =
    | PatientAppointmentForm
    | ProviderAppointmentForm
    | CancelForm
    | NotesForm

  /** The fields each serializer accepts from a request; every other
      submitted field is ignored. The topics are read-only in both
      representation serializers. */
  function Writable(kind: SerializerKind): (fs: set<Field>)
    ensures TopicsField !in fs && NonField !in fs
  {
    match kind
    case PatientAppointmentForm => {PatientField, StatusField, StartTimeField}
    case ProviderAppointmentForm => {ProviderField, ProviderNotesField, StatusField, StartTimeField}
    case CancelForm => {StatusField}
    case NotesForm => {ProviderNotesField}
  }

  /** Already-validated values submitted for an update; `None` means the
      field was not sent. For the notes, `Some(None)` sends a null. */
  datatype Changes = Changes(
    provider: Option<Provider>,
    patient: Option<Patient>,
    notes: Option<Option<string>>,
    status: Option<Status>,
    start: Option<int>)

  /** A partial update: a field is written only if the serializer accepts
      it and the request sent it. */
  function ApplyChanges(a: Appointment, c: Changes, writable: set<Field>): (r: Appointment)
    ensures r.id == a.id && r.topics == a.topics
    ensures r.createdAt == a.createdAt && r.updatedAt == a.updatedAt
    ensures r.provider != a.provider ==> ProviderField in writable && c.provider == Some(r.provider)
    ensures r.patient != a.patient ==> PatientField in writable && c.patient == Some(r.patient)
    ensures r.notes != a.notes ==> ProviderNotesField in writable && c.notes == Some(r.notes)
    ensures r.status != a.status ==> StatusField in writable && c.status == Some(r.status)
    ensures r.start != a.start ==> StartTimeField in writable && c.start == Some(r.start)
    ensures StatusField in writable && c.status.Some? ==> r.status == c.status.value
    ensures ProviderNotesField in writable && c.notes.Some? ==> r.notes == c.notes.value
  {
    a.(provider := if ProviderField in writable && c.provider.Some? then c.provider.value else a.provider,
       patient := if PatientField in writable && c.patient.Some? then c.patient.value else a.patient,
       notes := if ProviderNotesField in writable && c.notes.Some? then c.notes.value else a.notes,
       status := if StatusField in writable && c.status.Some? then c.status.value else a.status,
       start := if StartTimeField in writable && c.start.Some? then c.start.value else a.start)
  }

  /** The cancel serializer writes the status and nothing else. */
  lemma CancelFormWritesOnlyStatus(a: Appointment, c: Changes)
    ensures ApplyChanges(a, c, Writable(CancelForm)) == a.(status := if c.status.Some? then c.status.value else a.status)
  {
  }

  /** The notes serializer writes the provider's notes and nothing else. */
  lemma NotesFormWritesOnlyNotes(a: Appointment, c: Changes)
    ensures ApplyChanges(a, c, Writable(NotesForm)) == a.(notes := if c.notes.Some? then c.notes.value else a.notes)
  {
  }

  /** The patient-facing serializer never writes the provider's notes. */
  lemma PatientFormKeepsNotes(a: Appointment, c: Changes)
    ensures ApplyChanges(a, c, Writable(PatientAppointmentForm)).notes == a.notes
    ensures ApplyChanges(a, c, Writable(PatientAppointmentForm)).provider == a.provider
  {
  }

  // ---------------------------------------------------------------------
  // Representation
  // ---------------------------------------------------------------------

  /** What a caller receives for one appointment: the row, its derived end
      time, and whether the cancel and edit-notes links are present. */
  datatype View = View(appointment: Appointment, endTime: int, cancelUrl: bool, updateNotesUrl: bool)

  /** The representation for the given role. Links are built from the
      request, so none appear without one; the cancel link appears only
      while the appointment can still be cancelled, and only providers get
      an edit-notes link. */
  function Represent(a: Appointment, role: Role, hasRequest: bool): (v: View)
    ensures v.appointment == a
    ensures v.endTime == a.start + TotalDuration(a.topics)
    ensures v.cancelUrl <==> hasRequest && (a.status == Scheduled || a.status == InProgress)
    ensures v.updateNotesUrl <==> hasRequest && role == ProviderRole
  {
    View(a, EndTime(a),
         Cancellable(a.status) && hasRequest,
         role == ProviderRole && hasRequest)
  }
}

=== FILE: signals.dfy ===
/**
  The post-save hook: every time an existing appointment is saved, a
  Scheduled appointment whose start time has already passed is marked
  Overdue. Creating saves are left alone. The hook writes the status column
  only, through a direct update that does not touch the modification time.
 */
module Signals {
  import opened Statuses
  import opened Appointments

  /** The condition under which the hook rewrites the status. Until the hook
      runs, such an appointment still passes the cancel guard. */
  function IsStale(a: Appointment, created: bool, now: int): (r: bool)
    ensures r ==> Cancellable(a.status)
  {
    !created && a.status == Scheduled && a.start < now
  }

  /** The hook applied to the just-saved appointment. */
  function Reconcile(a: Appointment, created: bool, now: int): (r: Appointment)
    ensures r == a.(status := r.status)
    ensures IsStale(a, created, now) ==> r.status == Overdue
    ensures !IsStale(a, created, now) ==> r.status == a.status
  {
    if IsStale(a, created, now) then a.(status := Overdue) else a
  }

  /** A save of an existing or new row: the modification time becomes `now`,
      then the hook runs. */
  function Save(a: Appointment, created: bool, now: int): (r: Appointment)
    ensures r.updatedAt == now
    ensures r == a.(status := r.status, updatedAt := now)
    ensures r.status != a.status ==> !created && a.status == Scheduled && a.start < now && r.status == Overdue
  {
    Reconcile(a.(updatedAt := now), created, now)
  }

  /** Running the hook a second time changes nothing. */
  lemma ReconcileIdempotent(a: Appointment, created: bool, now: int)
    ensures Reconcile(Reconcile(a, created, now), created, now) == Reconcile(a, created, now)
  {
  }

  /** Saving twice at the same moment gives the same row as saving once. */
  lemma SaveIdempotent(a: Appointment, now: int)
    ensures Save(Save(a, false, now), false, now) == Save(a, false, now)
  {
  }

  /** A creating save never changes the status. */
  lemma CreatingSaveKeepsStatus(a: Appointment, now: int)
    ensures Reconcile(a, true, now) == a
  {
  }

  /** Only a Scheduled appointment can be rewritten. */
  lemma OnlyScheduledChanges(a: Appointment, created: bool, now: int)
    requires a.status != Scheduled
    ensures Reconcile(a, created, now) == a
  {
  }

  /** The comparison is strict: an appointment starting exactly now stays Scheduled. */
  lemma StartingNowStaysScheduled(a: Appointment)
    requires a.status == Scheduled
    ensures Reconcile(a, false, a.start).status == Scheduled
  {
  }

  /** Once past its start, a Scheduled appointment becomes Overdue at its next update. */
  lemma PastScheduledBecomesOverdue(a: Appointment, now: int)
    requires a.status == Scheduled && a.start < now
    ensures Save(a, false, now).status == Overdue
  {
  }

  /** An Overdue appointment is never offered for cancellation. */
  lemma OverdueNotCancellable(a: Appointment, now: int)
    requires IsStale(a, false, now)
    ensures !Cancellable(Reconcile(a, false, now).status)
  {
  }
}

=== FILE: status.dfy ===
/**
  The appointment status column: six choices stored as strings of at most
  20 characters. The in-progress choice is the literal "In Progress", with
  a space, and both the cancel guard and the cancel-link condition compare
  against that literal.
 */
module Statuses {
  import opened Common

  datatype Status =
    | Scheduled
    | InProgress
    | Completed
    | Overdue
    | UserCanceled
    | ProviderCanceled

  /** Width of the status column. */
  const MaxLabelLength: nat := 20

  /** The stored string of each choice. */
  function Label(s: Status): (r: string)
    ensures 0 < |r| <= MaxLabelLength
  {
    match s
    case Scheduled => "Scheduled"
    case InProgress => "In Progress"
    case Completed => "Completed"
    case Overdue => "Overdue"
    case UserCanceled => "UserCanceled"
    case ProviderCanceled => "ProviderCanceled"
  }

  /** Reads a submitted status string: only the six stored strings are
      choices, anything else (including the empty string) is rejected. */
  function Parse(x: string): (r: Option<Status>)
    ensures r.Some? ==> Label(r.value) == x
    ensures r.None? ==> forall s :: Label(s) != x
  {
    if x == "Scheduled" then Some(Scheduled)
    else if x == "In Progress" then Some(InProgress)
    else if x == "Completed" then Some(Completed)
    else if x == "Overdue" then Some(Overdue)
    else if x == "UserCanceled" then Some(UserCanceled)
    else if x == "ProviderCanceled" then Some(ProviderCanceled)
    else None
  }

  /** Statuses the cancel guard lets through: the program lists them by
      their stored strings, and exactly the two not-yet-finished statuses
      match. */
  function Cancellable(s: Status): (r: bool)
    ensures r <==> s == Scheduled || s == InProgress
  {
    Label(s) in ["Scheduled", "In Progress"]
  }

  /** Parsing a stored string gives back its status. */
  lemma ParseLabel(s: Status)
    ensures Parse(Label(s)) == Some(s)
  {
  }

  /** Distinct statuses are stored as distinct strings. */
  lemma LabelInjective(s: Status, t: Status)
    ensures Label(s) == Label(t) <==> s == t
  {
  }

  /** Without the space the in-progress string is not a choice. */
  lemma InProgressNeedsSpace()
    ensures Parse("InProgress") == None
    ensures Parse("In Progress") == Some(InProgress)
  {
  }
}

=== FILE: topics.dfy ===
/**
  Topics: a fixed catalogue of clinical reasons for a visit, each with a
  duration in whole minutes. An appointment's length is the sum of the
  durations of its topics.
 */
module Topics {

  /** The thirteen choices of the topic name column. */
  datatype TopicName =
    | PrimaryCareCheckup
    | AnnualPhysicalExam
    | Fatigue
    | HeadacheOrMigraine
    | Dizziness
    | FeverOrChills
    | CoughOrCold
    | BugBite
    | RashEvaluation
    | AnxietyCounseling
    | StressManagement
    | NutritionCounseling
    | SleepDisorderManagement

  type TopicId = nat

  /** A topic record; the duration column holds non-negative minutes. */
  datatype Topic = Topic(id: TopicId, name: TopicName, duration: nat)

  /** Sum of the durations of a list of topics; it is zero exactly when
      every topic is zero minutes long, in particular for no topics. */
  function TotalDuration(ts: seq<Topic>): (r: nat)
    ensures r == 0 <==> forall i :: 0 <= i < |ts| ==> ts[i].duration == 0
  {
    if |ts| == 0 then 0 else ts[0].duration + TotalDuration(ts[1..])
  }

  /** The sum over a concatenation is the sum of the sums. */
  lemma {:induction false} TotalDurationAppend(xs: seq<Topic>, ys: seq<Topic>)
    ensures TotalDuration(xs + ys) == TotalDuration(xs) + TotalDuration(ys)
  {
    if |xs| == 0 {
      assert xs + ys == ys;
    } else {
      assert (xs + ys)[1..] == xs[1..] + ys;
      TotalDurationAppend(xs[1..], ys);
    }
  }

  /** Adding one topic lengthens the total by exactly its duration. */
  lemma AddTopic(ts: seq<Topic>, t: Topic)
    ensures TotalDuration(ts + [t]) == TotalDuration(ts) + t.duration
  {
    TotalDurationAppend(ts, [t]);
    assert [t][1..] == [];
  }

  /** Taking out the topic at position i shortens the total by its duration. */
  lemma {:induction false} RemoveAt(ts: seq<Topic>, i: nat)
    requires i < |ts|
    ensures TotalDuration(ts) == ts[i].duration + TotalDuration(ts[..i] + ts[i + 1..])
  {
    TotalDurationAppend(ts[..i], ts[i..]);
    TotalDurationAppend(ts[..i], ts[i + 1..]);
    assert ts == ts[..i] + ts[i..];
    assert ts[i..][1..] == ts[i + 1..];
  }

  /** When two lists hold the same topics, the first topic of one occurs in
      the other, and what is left of both still holds the same topics. */
  lemma MatchFirst(xs: seq<Topic>, ys: seq<Topic>) returns (i: nat)
    requires |xs| > 0 && multiset(xs) == multiset(ys)
    ensures i < |ys| && ys[i] == xs[0]
    ensures multiset(xs[1..]) == multiset(ys[..i] + ys[i + 1..])
  {
    var t := xs[0];
    assert t in multiset(ys);
    i :| 0 <= i < |ys| && ys[i] == t;
    var rest := ys[..i] + ys[i + 1..];
    assert ys == ys[..i] + [t] + ys[i + 1..];
    assert multiset(ys) == multiset(rest) + multiset{t};
    assert xs == [t] + xs[1..];
    assert multiset(xs) == multiset{t} + multiset(xs[1..]);
    assert multiset(xs[1..]) == multiset(xs) - multiset{t};
    assert multiset(rest) == multiset(ys) - multiset{t};
  }

  /** The total does not depend on the order of the topics: any two lists
      holding the same topics the same number of times have equal totals. */
  lemma {:induction false} OrderIndependent(xs: seq<Topic>, ys: seq<Topic>)
    requires multiset(xs) == multiset(ys)
    ensures TotalDuration(xs) == TotalDuration(ys)
    decreases |xs|
  {
    if |xs| == 0 {
      assert |ys| == |multiset(ys)| == 0;
    } else {
      var i := MatchFirst(xs, ys);
      OrderIndependent(xs[1..], ys[..i] + ys[i + 1..]);
      RemoveAt(ys, i);
    }
  }

  /** No single topic outlasts the whole appointment. */
  lemma {:induction false} EachWithinTotal(ts: seq<Topic>, i: nat)
    requires i < |ts|
    ensures ts[i].duration <= TotalDuration(ts)
  {
    RemoveAt(ts, i);
  }

  /** Sums the durations one topic at a time, as the program's generator
      expression does. */
  method SumDurations(ts: seq<Topic>) returns (total: nat)
    ensures total == TotalDuration(ts)
  {
    total := 0;
    var i := 0;
    while i < |ts|
      invariant i <= |ts|
      invariant total == TotalDuration(ts[..i])
    {
      AddTopic(ts[..i], ts[i]);
      assert ts[..i + 1] == ts[..i] + [ts[i]];
      total := total + ts[i].duration;
      i := i + 1;
    }
    assert ts[..i] == ts;
  }

  /** The submitted topic ids with repeats dropped, first occurrence kept:
      a many-to-many relation holds each topic at most once. */
  function Distinct(ids: seq<TopicId>): (r: seq<TopicId>)
    ensures forall x :: x in r <==> x in ids
    ensures forall i, j :: 0 <= i < j < |r| ==> r[i] != r[j]
    ensures |r| <= |ids|
  {
    if |ids| == 0 then []
    else
      var rest := Distinct(ids[..|ids| - 1]);
      var last := ids[|ids| - 1];
      assert ids == ids[..|ids| - 1] + [last];
      if last in rest then rest else rest + [last]
  }

  /** The two topics of the worked example: 15 and 20 minutes give 35. */
  lemma CoughAndFatigue(a: TopicId, b: TopicId)
    ensures TotalDuration([Topic(a, CoughOrCold, 15), Topic(b, Fatigue, 20)]) == 35
  {
  }
}

=== FILE: views.dfy ===
/**
  The request handlers of the patient and provider appointment endpoints,
  written once and parameterised by the caller's role. The user, patient,
  provider and topic tables are a `Registry`; the appointment table is a
  finite map from primary key to row.

  Every handler first applies the role check (the caller must be linked to
  a record of the role), then looks the appointment up among the caller's
  own appointments, then applies the object check.
 */
module Views {
  import opened Common
  import opened Statuses
  import opened Topics
  import opened Appointments
  import opened Signals
  import opened Serializers

  /** The tables the handlers read: patient and provider records by their
      user (each user has at most one of each), and the topic table. */
  datatype Registry = Registry(
    patients: map<UserId, Patient>,
    providers: map<UserId, Provider>,
    catalogue: map<TopicId, Topic>)

  /** The appointment table. */
  type Store = map<AppointmentId, Appointment>

  /** The table after a handler ran, and the appointment it answered with. */
  datatype Effect = Effect(store: Store, appointment: Appointment)

  /** Integrity of the registry: each record is filed under its own user,
      primary keys are unique, and topics are filed under their ids. */
  predicate RegistryValid(reg: Registry) {
    && (forall u :: u in reg.patients ==> reg.patients[u].user == u)
    && (forall u, v :: u in reg.patients && v in reg.patients && reg.patients[u].id == reg.patients[v].id ==> u == v)
    && (forall u :: u in reg.providers ==> reg.providers[u].user == u)
    && (forall u, v :: u in reg.providers && v in reg.providers && reg.providers[u].id == reg.providers[v].id ==> u == v)
    && CatalogueValid(reg.catalogue)
  }

  /** The records an appointment points to are the registered ones. */
  predicate Registered(reg: Registry, a: Appointment) {
    && a.patient.user in reg.patients && reg.patients[a.patient.user] == a.patient
    && a.provider.user in reg.providers && reg.providers[a.provider.user] == a.provider
  }

  /** Every row is filed under its own primary key. */
  predicate KeysConsistent(store: Store) {
    forall k :: k in store ==> store[k].id == k
  }

  /** Integrity of the appointment table. */
  predicate StoreValid(reg: Registry, store: Store) {
    KeysConsistent(store) && forall k :: k in store ==> Registered(reg, store[k])
  }

  /** The patient table keyed by primary key. */
  function PatientsById(reg: Registry): (m: map<nat, Patient>)
    requires RegistryValid(reg)
    ensures forall u :: u in reg.patients ==> reg.patients[u].id in m && m[reg.patients[u].id] == reg.patients[u]
    ensures forall k :: k in m ==> m[k].id == k && m[k].user in reg.patients && reg.patients[m[k].user] == m[k]
  {
    map u | u in reg.patients :: reg.patients[u].id := reg.patients[u]
  }

  /** The provider table keyed by primary key. */
  function ProvidersById(reg: Registry): (m: map<nat, Provider>)
    requires RegistryValid(reg)
    ensures forall u :: u in reg.providers ==> reg.providers[u].id in m && m[reg.providers[u].id] == reg.providers[u]
    ensures forall k :: k in m ==> m[k].id == k && m[k].user in reg.providers && reg.providers[m[k].user] == m[k]
  {
    map u | u in reg.providers :: reg.providers[u].id := reg.providers[u]
  }

  // ---------------------------------------------------------------------
  // Access policy
  // ---------------------------------------------------------------------

  /** The role check: the caller is linked to a record of the role. On a
      consistent registry, looking the caller up by user agrees with
      searching the role's table for a record of that user. */
  function HasRole(reg: Registry, caller: UserId, role: Role): (r: bool)
    ensures RegistryValid(reg) && role.PatientRole? ==>
              (r <==> exists p :: p in reg.patients.Values && p.user == caller)
    ensures RegistryValid(reg) && role.ProviderRole? ==>
              (r <==> exists p :: p in reg.providers.Values && p.user == caller)
  {
    match role
    case PatientRole => caller in reg.patients
    case ProviderRole => caller in reg.providers
  }

  /** The object check: the appointment's patient (or provider) record
      belongs to the caller. */
  predicate ObjectPermission(caller: UserId, role: Role, a: Appointment) {
    match role
    case PatientRole => a.patient.user == caller
    case ProviderRole => a.provider.user == caller
  }

  /** The owner filter of the listing: the appointment's patient (or
      provider) is the caller's record, compared by primary key. A caller
      without a record gets an empty listing, and on consistent tables the
      key comparison is the same as comparing whole records. */
  function InQueryset(reg: Registry, caller: UserId, role: Role, a: Appointment): (r: bool)
    ensures r ==> HasRole(reg, caller, role)
    ensures RegistryValid(reg) && Registered(reg, a) ==>
              (r <==> (role.PatientRole? && caller in reg.patients && a.patient == reg.patients[caller])
                      || (role.ProviderRole? && caller in reg.providers && a.provider == reg.providers[caller]))
  {
    match role
    case PatientRole => caller in reg.patients && a.patient.id == reg.patients[caller].id
    case ProviderRole => caller in reg.providers && a.provider.id == reg.providers[caller].id
  }

  /** On consistent tables, the owner filter and the object check agree. */
  lemma QuerysetIsOwnership(reg: Registry, caller: UserId, role: Role, a: Appointment)
    requires RegistryValid(reg) && Registered(reg, a) && HasRole(reg, caller, role)
    ensures InQueryset(reg, caller, role, a) <==> ObjectPermission(caller, role, a)
  {
  }

  /** The lookup shared by the detail actions: role check, then the
      appointment among the caller's own, then the object check. */
  function GetObject(reg: Registry, store: Store, caller: UserId, role: Role, id: AppointmentId): (r: Result<Appointment>)
    ensures r.Ok? <==> HasRole(reg, caller, role) && id in store
                       && InQueryset(reg, caller, role, store[id]) && ObjectPermission(caller, role, store[id])
    ensures r.Ok? ==> r.value == store[id]
    ensures !HasRole(reg, caller, role) ==> r == Err(Forbidden)
    ensures HasRole(reg, caller, role) && (id !in store || !InQueryset(reg, caller, role, store[id])) ==> r == Err(NotFound)
  {
    if !HasRole(reg, caller, role) then Err(Forbidden)
    else if id !in store || !InQueryset(reg, caller, role, store[id]) then Err(NotFound)
    else if !ObjectPermission(caller, role, store[id]) then Err(Forbidden)
    else Ok(store[id])
  }

  /** Someone else's appointment is not found: the owner filter hides it
      before the object check is reached. */
  lemma OthersAppointmentNotFound(reg: Registry, store: Store, caller: UserId, role: Role, id: AppointmentId)
    requires RegistryValid(reg) && StoreValid(reg, store)
    requires HasRole(reg, caller, role) && id in store
    requires !ObjectPermission(caller, role, store[id])
    ensures GetObject(reg, store, caller, role, id) == Err(NotFound)
  {
  }

  /** On consistent tables a caller reaches exactly their own appointments. */
  lemma GetObjectIsOwnership(reg: Registry, store: Store, caller: UserId, role: Role, id: AppointmentId)
    requires RegistryValid(reg) && StoreValid(reg, store)
    ensures GetObject(reg, store, caller, role, id).Ok?
            <==> HasRole(reg, caller, role) && id in store && ObjectPermission(caller, role, store[id])
  {
  }

  // ---------------------------------------------------------------------
  // Listing
  // ---------------------------------------------------------------------

  predicate SortedByStart(s: seq<Appointment>) {
    forall i, j :: 0 <= i < j < |s| ==> s[i].start <= s[j].start
  }

  predicate DistinctIds(s: seq<Appointment>) {
    forall i, j :: 0 <= i < j < |s| ==> s[i].id != s[j].id
  }

  /** Inserts an appointment into a list ordered by start time, after any
      appointment starting at the same time. */
  function InsertByStart(s: seq<Appointment>, a: Appointment): (r: seq<Appointment>)
    ensures |r| == |s| + 1
    ensures forall x :: x in r <==> x in s || x == a
    ensures multiset(r) == multiset(s) + multiset{a}
  {
    if |s| == 0 then [a]
    else if a.start < s[0].start then [a] + s
    else
      assert s == [s[0]] + s[1..];
      [s[0]] + InsertByStart(s[1..], a)
  }

  /** Insertion keeps a list ordered by start time. */
  lemma {:induction false} InsertSorted(s: seq<Appointment>, a: Appointment)
    requires SortedByStart(s)
    ensures SortedByStart(InsertByStart(s, a))
  {
    if |s| > 0 && a.start >= s[0].start {
      InsertSorted(s[1..], a);
      var rest := InsertByStart(s[1..], a);
      forall j | 0 <= j < |rest|
        ensures s[0].start <= rest[j].start
      {
        assert rest[j] in rest;
        if rest[j] != a {
          var k :| 0 <= k < |s[1..]| && s[1..][k] == rest[j];
          assert rest[j] == s[k + 1];
        }
      }
      assert InsertByStart(s, a) == [s[0]] + rest;
    }
  }

  /** Inserting an appointment whose id is new keeps the ids distinct. */
  lemma {:induction false} InsertDistinct(s: seq<Appointment>, a: Appointment)
    requires DistinctIds(s)
    requires forall x :: x in s ==> x.id != a.id
    ensures DistinctIds(InsertByStart(s, a))
  {
    if |s| > 0 && a.start >= s[0].start {
      assert forall x :: x in s[1..] ==> x in s;
      InsertDistinct(s[1..], a);
      var rest := InsertByStart(s[1..], a);
      forall j | 0 <= j < |rest|
        ensures s[0].id != rest[j].id
      {
        assert rest[j] in rest;
        if rest[j] != a {
          var k :| 0 <= k < |s[1..]| && s[1..][k] == rest[j];
          assert rest[j] == s[k + 1];
        }
      }
      assert InsertByStart(s, a) == [s[0]] + rest;
    }
  }

  /** The caller's appointments, ordered by start time; nobody's when the
      caller has no record of the role. */
  method Queryset(reg: Registry, store: Store, caller: UserId, role: Role) returns (r: seq<Appointment>)
    requires KeysConsistent(store)
    ensures SortedByStart(r) && DistinctIds(r)
    ensures forall x :: x in r ==> x.id in store && store[x.id] == x && InQueryset(reg, caller, role, x)
    ensures forall k :: k in store && InQueryset(reg, caller, role, store[k]) ==> store[k] in r
    ensures !HasRole(reg, caller, role) ==> r == []
  {
    r := [];
    if !HasRole(reg, caller, role) {
      return;
    }
    var pending := store.Keys;
    while pending != {}
      invariant pending <= store.Keys
      invariant SortedByStart(r) && DistinctIds(r)
      invariant forall x :: x in r ==> x.id in store && x.id !in pending && store[x.id] == x && InQueryset(reg, caller, role, x)
      invariant forall k :: k in store && k !in pending && InQueryset(reg, caller, role, store[k]) ==> store[k] in r
      decreases pending
    {
      var k :| k in pending;
      pending := pending - {k};
      if InQueryset(reg, caller, role, store[k]) {
        InsertSorted(r, store[k]);
        InsertDistinct(r, store[k]);
        r := InsertByStart(r, store[k]);
      }
    }
  }

  /** The list action: the role check, then the caller's appointments. On
      consistent tables these are exactly the appointments the caller owns. */
  method List(reg: Registry, store: Store, caller: UserId, role: Role) returns (r: Result<seq<Appointment>>)
    requires KeysConsistent(store)
    ensures r.Err? <==> !HasRole(reg, caller, role)
    ensures r.Err? ==> r.error == Forbidden
    ensures r.Ok? ==> SortedByStart(r.value) && DistinctIds(r.value)
    ensures r.Ok? ==> forall x :: x in r.value ==> x.id in store && store[x.id] == x && InQueryset(reg, caller, role, x)
    ensures r.Ok? && RegistryValid(reg) && StoreValid(reg, store) ==>
              forall k :: k in store ==> (store[k] in r.value <==> ObjectPermission(caller, role, store[k]))
  {
    if !HasRole(reg, caller, role) {
      return Err(Forbidden);
    }
    var listed := Queryset(reg, store, caller, role);
    if RegistryValid(reg) && StoreValid(reg, store) {
      forall k | k in store
        ensures store[k] in listed <==> ObjectPermission(caller, role, store[k])
      {
        QuerysetIsOwnership(reg, caller, role, store[k]);
      }
    }
    return Ok(listed);
  }

  // ---------------------------------------------------------------------
  // Creation
  // ---------------------------------------------------------------------

  /** The create action. The caller's own record fills the caller's side
      and the request names the other party; the new row gets the given
      fresh primary key. The creating save leaves the status alone. */
  function Create(reg: Registry, store: Store, caller: UserId, role: Role,
                  req: CreateRequest, id: AppointmentId, now: int): (r: Result<Effect>)
    requires RegistryValid(reg)
    requires id !in store
    ensures !HasRole(reg, caller, role) ==> r == Err(Forbidden)
    ensures r.Ok? <==> HasRole(reg, caller, role) && TopicsOk(req, reg.catalogue) && StartOk(req, now)
                       && (role == PatientRole ==> CounterpartOk(req, ProvidersById(reg)))
                       && (role == ProviderRole ==> CounterpartOk(req, PatientsById(reg)))
    ensures r.Err? && HasRole(reg, caller, role) ==> r.error.Invalid?
    ensures r.Err? && HasRole(reg, caller, role) ==> (StartTimeField in r.error.fields <==> !StartOk(req, now))
    ensures r.Err? && HasRole(reg, caller, role) ==> (TopicsField in r.error.fields <==> !TopicsOk(req, reg.catalogue))
    ensures r.Ok? ==> r.value.store == store[id := r.value.appointment]
    ensures r.Ok? ==> ObjectPermission(caller, role, r.value.appointment) && Registered(reg, r.value.appointment)
    ensures r.Ok? && role == PatientRole ==>
              r.value.appointment.patient == reg.patients[caller] && r.value.appointment.provider.id == req.counterpart.value
    ensures r.Ok? && role == ProviderRole ==>
              r.value.appointment.provider == reg.providers[caller] && r.value.appointment.patient.id == req.counterpart.value
    ensures r.Ok? ==> var a := r.value.appointment;
                      a.id == id && a.status == Scheduled && a.notes == None
                      && now < a.start && |a.topics| > 0
                      && a.createdAt == now && a.updatedAt == now
  {
    if !HasRole(reg, caller, role) then Err(Forbidden)
    else match role
      case PatientRole =>
        var patient := reg.patients[caller];
        var v := ValidateCreate(role, req, ProvidersById(reg), reg.catalogue, now);
        if v.Err? then Err(v.error)
        else
          var a := Save(New(id, v.value.counterpart, patient, v.value.topics, v.value.start, now), true, now);
          Ok(Effect(store[id := a], a))
      case ProviderRole =>
        var provider := reg.providers[caller];
        var v := ValidateCreate(role, req, PatientsById(reg), reg.catalogue, now);
        if v.Err? then Err(v.error)
        else
          var a := Save(New(id, provider, v.value.counterpart, v.value.topics, v.value.start, now), true, now);
          Ok(Effect(store[id := a], a))
  }

  /** Creation keeps the appointment table consistent. */
  lemma CreateKeepsStoreValid(reg: Registry, store: Store, caller: UserId, role: Role,
                              req: CreateRequest, id: AppointmentId, now: int)
    requires RegistryValid(reg) && id !in store && StoreValid(reg, store)
    ensures Create(reg, store, caller, role, req, id, now).Ok? ==>
              StoreValid(reg, Create(reg, store, caller, role, req, id, now).value.store)
  {
  }

  /** A created appointment ends after the summed durations of the distinct
      submitted topics. */
  lemma CreateEndTime(reg: Registry, store: Store, caller: UserId, role: Role,
                      req: CreateRequest, id: AppointmentId, now: int)
    requires RegistryValid(reg) && id !in store
    ensures var r := Create(reg, store, caller, role, req, id, now);
            r.Ok? ==>
              req.start.Some? && r.value.appointment.start == req.start.value
              && EndTime(r.value.appointment) == req.start.value + TotalDuration(r.value.appointment.topics)
              && (forall t :: t in r.value.appointment.topics <==> t.id in req.topics && t in reg.catalogue.Values)
  {
  }

  // ---------------------------------------------------------------------
  // Cancellation
  // ---------------------------------------------------------------------

  /** What the cancel handler does with a request: show the confirmation
      page, validate a form's own status field (possibly absent), or submit
      the role's own cancelled status. `CancelMethodOf` says which HTTP
      request leads to which: a PATCH, and also a HEAD, take the last path. */
  datatype CancelMethod = ConfirmCancel | PostCancel(status: Option<string>) | PatchCancel

  /** The status string a cancel request submits, if any. The constant a
      PATCH submits always passes the serializer's role check; a form POST
      submits whatever its status field holds. */
  function SubmittedStatus(role: Role, m: CancelMethod): (s: Option<string>)
    requires !m.ConfirmCancel?
    ensures m.PatchCancel? ==> s.Some? && ValidateCancelStatus(Some(role), s.value) == Ok(CancelTarget(role))
    ensures m.PostCancel? ==> s == m.status
  {
    match m
    case PostCancel(s) => s
    case PatchCancel =>
      CancelStatusForRole(role, Label(CancelTarget(role)));
      Some(Label(CancelTarget(role)))
  }

  /** The cancel action. Only Scheduled and In Progress appointments pass
      the guard. A submitted status must be the role's own cancelled status;
      a form without a status field saves the row unchanged. Either way the
      save runs the overdue hook. */
  function Cancel(reg: Registry, store: Store, caller: UserId, role: Role,
                  id: AppointmentId, m: CancelMethod, now: int): (r: Result<Effect>)
    ensures GetObject(reg, store, caller, role, id).Err? ==> r == Err(GetObject(reg, store, caller, role, id).error)
    ensures GetObject(reg, store, caller, role, id).Ok? && !Cancellable(store[id].status) ==> r == Err(NotCancellable)
    ensures r.Ok? ==> GetObject(reg, store, caller, role, id).Ok? && Cancellable(store[id].status)
    ensures r.Ok? ==> r.value.store == store[id := r.value.appointment]
    ensures r.Ok? && m.ConfirmCancel? ==> r.value.store == store && r.value.appointment == store[id]
    ensures (m.ConfirmCancel? || (m.PostCancel? && m.status.None?)) ==>
              (r.Ok? <==> GetObject(reg, store, caller, role, id).Ok? && Cancellable(store[id].status))
    ensures m.PatchCancel? ==> (r.Ok? <==> GetObject(reg, store, caller, role, id).Ok? && Cancellable(store[id].status))
    ensures m.PostCancel? && m.status.Some? ==>
              (r.Ok? <==> GetObject(reg, store, caller, role, id).Ok? && Cancellable(store[id].status)
                          && m.status.value == Label(CancelTarget(role)))
    ensures r.Ok? && !m.ConfirmCancel? && SubmittedStatus(role, m).Some? ==>
              r.value.appointment == store[id].(status := CancelTarget(role), updatedAt := now)
    ensures r.Ok? && m.PostCancel? && m.status.None? ==>
              r.value.appointment == store[id].(status := r.value.appointment.status, updatedAt := now)
              && (r.value.appointment.status == Overdue <==> store[id].status == Scheduled && store[id].start < now)
    ensures (r.Err? && m.PostCancel? && m.status.Some? && GetObject(reg, store, caller, role, id).Ok?
             && Cancellable(store[id].status)) ==> r.error == Invalid({StatusField})
  {
    match GetObject(reg, store, caller, role, id)
    case Err(e) => Err(e)
    case Ok(a) =>
      if !Cancellable(a.status) then Err(NotCancellable)
      else if m.ConfirmCancel? then Ok(Effect(store, a))
      else
        var submitted := SubmittedStatus(role, m);
        var validated: Result<Option<Status>> :=
          if submitted.None? then Ok(None)
          else match ValidateCancelStatus(Some(role), submitted.value)
            case Err(e) => Err(e)
            case Ok(s) => Ok(Some(s));
        if validated.Err? then Err(validated.error)
        else
          CancelStatusForRole(role, if submitted.Some? then submitted.value else "");
          var changes := Changes(None, None, None, validated.value, None);
          var saved := Save(ApplyChanges(a, changes, Writable(CancelForm)), false, now);
          Ok(Effect(store[id := saved], saved))
  }

  /** A successful PATCH cancel sets the role's own cancelled status and
      changes nothing else but the modification time. */
  lemma PatchCancelSetsTarget(reg: Registry, store: Store, caller: UserId, role: Role, id: AppointmentId, now: int)
    requires Cancel(reg, store, caller, role, id, PatchCancel, now).Ok?
    ensures var e := Cancel(reg, store, caller, role, id, PatchCancel, now).value;
            e.appointment.status == (if role == PatientRole then UserCanceled else ProviderCanceled)
            && e.appointment == store[id].(status := e.appointment.status, updatedAt := now)
            && e.store == store[id := e.appointment]
  {
  }

  /** Completed, Overdue and cancelled appointments cannot be cancelled,
      whoever asks and however. */
  lemma TerminalNotCancellable(reg: Registry, store: Store, caller: UserId, role: Role,
                               id: AppointmentId, m: CancelMethod, now: int)
    requires id in store && store[id].status in {Completed, Overdue, UserCanceled, ProviderCanceled}
    ensures Cancel(reg, store, caller, role, id, m, now).Err?
  {
  }

  /** Once a cancel has set a cancelled status, every further cancel of the
      same appointment fails, by anyone and in any form. */
  lemma SecondCancelFails(reg: Registry, store: Store, caller: UserId, role: Role, id: AppointmentId,
                          m: CancelMethod, now: int,
                          caller': UserId, role': Role, m': CancelMethod, now': int)
    requires m.PatchCancel? || (m.PostCancel? && m.status.Some?)
    requires Cancel(reg, store, caller, role, id, m, now).Ok?
    ensures Cancel(reg, Cancel(reg, store, caller, role, id, m, now).value.store, caller', role', id, m', now').Err?
  {
  }

  /** A patient cannot submit the provider's cancelled status, nor the
      reverse; nothing is written. */
  lemma WrongTargetRejected(reg: Registry, store: Store, caller: UserId, role: Role, id: AppointmentId, now: int)
    requires GetObject(reg, store, caller, role, id).Ok? && Cancellable(store[id].status)
    ensures var other := if role == PatientRole then "ProviderCanceled" else "UserCanceled";
            Cancel(reg, store, caller, role, id, PostCancel(Some(other)), now) == Err(Invalid({StatusField}))
  {
  }

  /** The cancel link of the representation is shown exactly when the
      cancel action's status guard would let a PATCH through. */
  lemma CancelLinkMatchesGuard(reg: Registry, store: Store, caller: UserId, role: Role, id: AppointmentId, now: int)
    requires GetObject(reg, store, caller, role, id).Ok?
    ensures Represent(store[id], role, true).cancelUrl <==> Cancel(reg, store, caller, role, id, PatchCancel, now).Ok?
  {
  }


  /** An HTTP request to the cancel action. A POST body is read only when it
      is form-encoded; `status` is the form's status field. */
  datatype CancelRequest =
    | CancelGet
    | CancelHead
    | CancelPost(formEncoded: bool, status: Option<string>)
    | CancelPatch

  /** The handler's reading of a request. Only a GET is answered with the
      confirmation page, so a HEAD falls through to the PATCH path; a POST
      submits a status only from a form-encoded body. */
  function CancelMethodOf(req: CancelRequest): (m: CancelMethod)
    ensures m.ConfirmCancel? <==> req.CancelGet?
    ensures m.PostCancel? <==> req.CancelPost?
    ensures m.PostCancel? && m.status.Some? ==> req.formEncoded && m.status == req.status
    ensures req.CancelHead? ==> m.PatchCancel?
    ensures req.CancelPost? ==> m == PostCancel(if req.formEncoded then req.status else None)
  {
    match req
    case CancelGet => ConfirmCancel
    case CancelHead => PatchCancel
    case CancelPost(form, s) => PostCancel(if form then s else None)
    case CancelPatch => PatchCancel
  }

  /** As written, a HEAD request cancels a cancellable appointment: it sets
      the role's cancelled status, exactly as a PATCH does. */
  lemma HeadCancels(reg: Registry, store: Store, caller: UserId, role: Role, id: AppointmentId, now: int)
    requires GetObject(reg, store, caller, role, id).Ok? && Cancellable(store[id].status)
    ensures var r := Cancel(reg, store, caller, role, id, CancelMethodOf(CancelHead), now);
            r.Ok? && r.value.appointment.status == CancelTarget(role)
            && r.value.store[id].status != store[id].status
  {
  }

  /** A POST whose body is not form-encoded submits no status, whatever it
      holds: it passes exactly when the guard does and cancels nothing, and
      the save only applies the overdue rule. */
  lemma NonFormPostKeepsStatus(reg: Registry, store: Store, caller: UserId, role: Role, id: AppointmentId,
                               status: Option<string>, now: int)
    ensures var r := Cancel(reg, store, caller, role, id, CancelMethodOf(CancelPost(false, status)), now);
            (r.Ok? <==> GetObject(reg, store, caller, role, id).Ok? && Cancellable(store[id].status))
            && (r.Ok? ==> r.value.appointment.status
                          == (if store[id].status == Scheduled && store[id].start < now then Overdue
                              else store[id].status))
  {
  }

  /** The evidently intended reading: a HEAD is answered like a GET, and
      every other request is read as the handler reads it. */
  function SafeCancelMethodOf(req: CancelRequest): (m: CancelMethod)
    ensures m.ConfirmCancel? <==> req.CancelGet? || req.CancelHead?
    ensures !req.CancelHead? ==> m == CancelMethodOf(req)
  {
    if req.CancelHead? then ConfirmCancel else CancelMethodOf(req)
  }

  // ---------------------------------------------------------------------
  // Provider notes
  // ---------------------------------------------------------------------

  /** What the notes handler does with a request: show the edit form, or
      submit the notes field, which may be absent or null. `NotesMethodOf`
      says which HTTP request leads to which: a HEAD submits an absent field,
      and so does a POST whose body is not form-encoded. */
  datatype NotesMethod = EditNotes | SubmitNotes(notes: Option<Option<string>>)

  /** A submitted notes form whose text holds a NUL character. */
  predicate SubmitsNul(m: NotesMethod) {
    m.SubmitNotes? && m.notes.Some? && m.notes.value.Some? && '\0' in m.notes.value.value
  }

  /** The provider-only notes action. It has no status guard; submitted text
      is trimmed before it is stored, and the save runs the overdue hook. */
  function UpdateNotes(reg: Registry, store: Store, caller: UserId, id: AppointmentId,
                       m: NotesMethod, now: int): (r: Result<Effect>)
    ensures r.Ok? <==> GetObject(reg, store, caller, ProviderRole, id).Ok? && !SubmitsNul(m)
    ensures r.Err? && GetObject(reg, store, caller, ProviderRole, id).Err? ==>
              r.error == GetObject(reg, store, caller, ProviderRole, id).error
    ensures r.Err? && GetObject(reg, store, caller, ProviderRole, id).Ok? ==>
              r.error == Invalid({ProviderNotesField})
    ensures r.Ok? ==> r.value.store == store[id := r.value.appointment]
    ensures r.Ok? && m.EditNotes? ==> r.value.store == store
    ensures r.Ok? && m.SubmitNotes? ==>
              r.value.appointment == store[id].(notes := r.value.appointment.notes,
                                                status := r.value.appointment.status, updatedAt := now)
    ensures r.Ok? && m.SubmitNotes? ==>
              r.value.appointment.notes
              == (if m.notes.None? then store[id].notes
                  else if m.notes.value.None? then None
                  else Some(Strip(m.notes.value.value)))
    ensures r.Ok? && m.SubmitNotes? ==>
              ((r.value.appointment.status != store[id].status)
               <==> (store[id].status == Scheduled && store[id].start < now))
  {
    match GetObject(reg, store, caller, ProviderRole, id)
    case Err(e) => Err(e)
    case Ok(a) =>
      if m.EditNotes? then Ok(Effect(store, a))
      else if m.notes.None? then
        var saved := Save(ApplyChanges(a, Changes(None, None, None, None, None), Writable(NotesForm)), false, now);
        Ok(Effect(store[id := saved], saved))
      else
        match ValidateNotes(m.notes.value)
        case Err(e) => Err(e)
        case Ok(notes) =>
          var changes := Changes(None, None, Some(notes), None, None);
          var saved := Save(ApplyChanges(a, changes, Writable(NotesForm)), false, now);
          Ok(Effect(store[id := saved], saved))
  }

  /** The notes of one's own appointment can be replaced in every status,
      including Completed and cancelled ones: only the submitted text decides
      whether the form is accepted and what is stored. */
  lemma NotesIgnoreStatus(reg: Registry, store: Store, caller: UserId, id: AppointmentId,
                          notes: Option<string>, s: Status, now: int)
    requires GetObject(reg, store, caller, ProviderRole, id).Ok?
    ensures var r := UpdateNotes(reg, store[id := store[id].(status := s)], caller, id, SubmitNotes(Some(notes)), now);
            (r.Ok? <==> ValidateNotes(notes).Ok?)
            && (r.Ok? ==> r.value.appointment.notes == ValidateNotes(notes).value)
  {
  }

  /** Patients have no notes action: a caller without a provider record is refused. */
  lemma NotesNeedProvider(reg: Registry, store: Store, caller: UserId, id: AppointmentId, m: NotesMethod, now: int)
    requires caller !in reg.providers
    ensures UpdateNotes(reg, store, caller, id, m, now) == Err(Forbidden)
  {
  }

  /** An HTTP request to the notes action. A POST body is read only when it
      is form-encoded, and a form field is always text; a PATCH body may
      also send null. A HEAD carries no body. */
  datatype NotesRequest =
    | NotesGet
    | NotesHead
    | NotesPost(formEncoded: bool, text: Option<string>)
    | NotesPatch(notes: Option<Option<string>>)

  /** The handler's reading of a request. Only a GET is answered with the
      edit form; every other request is submitted, a HEAD and a non-form
      POST with the notes field absent. */
  function NotesMethodOf(req: NotesRequest): (m: NotesMethod)
    ensures m.EditNotes? <==> req.NotesGet?
    ensures m.SubmitNotes? && m.notes.Some? ==> (req.NotesPost? && req.formEncoded) || req.NotesPatch?
    ensures req.NotesPost? && m.SubmitNotes? && m.notes.Some? ==> req.text.Some? && m.notes.value == Some(req.text.value)
    ensures req.NotesHead? ==> m == SubmitNotes(None)
    ensures req.NotesPatch? ==> m == SubmitNotes(req.notes)
    ensures req.NotesPost? && req.formEncoded && req.text.Some? ==> m == SubmitNotes(Some(req.text))
  {
    match req
    case NotesGet => EditNotes
    case NotesHead => SubmitNotes(None)
    case NotesPost(form, n) => SubmitNotes(if form && n.Some? then Some(Some(n.value)) else None)
    case NotesPatch(n) => SubmitNotes(n)
  }

  /** As written, a HEAD request saves the row: the notes stay, but the
      modification time moves to now and the overdue rule runs. */
  lemma HeadSavesNotesRow(reg: Registry, store: Store, caller: UserId, id: AppointmentId, now: int)
    requires GetObject(reg, store, caller, ProviderRole, id).Ok?
    ensures var r := UpdateNotes(reg, store, caller, id, NotesMethodOf(NotesHead), now);
            r.Ok? && r.value.appointment.notes == store[id].notes && r.value.appointment.updatedAt == now
            && (r.value.appointment.status == Overdue
                <==> (store[id].status == Overdue || (store[id].status == Scheduled && store[id].start < now)))
  {
  }

  /** A POST whose body is not form-encoded stores no notes, whatever it
      holds, yet it is accepted whenever the lookup succeeds. */
  lemma NonFormPostKeepsNotes(reg: Registry, store: Store, caller: UserId, id: AppointmentId,
                              notes: Option<string>, now: int)
    ensures var r := UpdateNotes(reg, store, caller, id, NotesMethodOf(NotesPost(false, notes)), now);
            (r.Ok? <==> GetObject(reg, store, caller, ProviderRole, id).Ok?)
            && (r.Ok? ==> r.value.appointment.notes == store[id].notes)
  {
  }

  /** The evidently intended reading: a HEAD is answered like a GET, and
      every other request is read as the handler reads it. */
  function SafeNotesMethodOf(req: NotesRequest): (m: NotesMethod)
    ensures m.EditNotes? <==> req.NotesGet? || req.NotesHead?
    ensures !req.NotesHead? ==> m == NotesMethodOf(req)
  {
    if req.NotesHead? then EditNotes else NotesMethodOf(req)
  }

  /** Under the intended reading, GET and HEAD never write: whenever they
      succeed, the table is returned unchanged. */
  lemma SafeRequestsWriteNothing(reg: Registry, store: Store, caller: UserId, role: Role, id: AppointmentId,
                                 cr: CancelRequest, nr: NotesRequest, now: int)
    requires cr.CancelGet? || cr.CancelHead?
    requires nr.NotesGet? || nr.NotesHead?
    ensures var r := Cancel(reg, store, caller, role, id, SafeCancelMethodOf(cr), now);
            r.Ok? ==> r.value.store == store && r.value.appointment == store[id]
    ensures var r := UpdateNotes(reg, store, caller, id, SafeNotesMethodOf(nr), now);
            r.Ok? ==> r.value.store == store && r.value.appointment == store[id]
  {
  }

  /** The handlers that write keep the appointment table consistent. */
  lemma WritesKeepStoreValid(reg: Registry, store: Store, caller: UserId, role: Role, id: AppointmentId,
                             cm: CancelMethod, nm: NotesMethod, now: int)
    requires StoreValid(reg, store)
    ensures Cancel(reg, store, caller, role, id, cm, now).Ok? ==>
              StoreValid(reg, Cancel(reg, store, caller, role, id, cm, now).value.store)
    ensures UpdateNotes(reg, store, caller, id, nm, now).Ok? ==>
              StoreValid(reg, UpdateNotes(reg, store, caller, id, nm, now).value.store)
  {
  }
}
